=== FILE: README.md ===
# Academic ERP back end: handler logic in Dafny

The back end is an Express/MySQL service. Almost every handler builds a SQL
statement, runs it and returns the rows. This project models the handlers
whose JavaScript contains real logic, each as pure Dafny functions. The
database reads are passed in as sequences and maps, and the tables they
write are returned as new values.

- `Fees` (js.dfy, fees.dfy): POST /api/fees/add-payment. It checks the
  request, finds the first fee row for (reg_no, fee_type) and adds the
  payment. It then classifies the row as PAID, PARTIAL or NOT PAID and
  rewrites the row by `fee_id`.
- `OverallAttendance`: GET /api/overallattendance. It folds over the
  "Present" rows to produce the jain/non-jain, hostel/day-scholar and M/F
  counters and the per-department and per-class histograms.
- `SubjectMerge`: GET /api/subjects/staff. The handled subjects are tagged
  `from_ca: false` and the subjects of advised classes `from_ca: true`. The
  two lists are then de-duplicated through a JavaScript `Map`, modelled as
  an insertion-ordered sequence.
- `MarkAttendance`: POST /api/attendance, found in server.js and again in
  routes/attendanceRoutes.js. The handler filters the records and upserts
  the accepted ones into the attendance table, where the last write wins.
  The two copies differ only in the access tag they accept: `"CA"` in
  server.js and `"ca"` in the routes file. The model takes the tag as a
  parameter, and `MarkServer` and `MarkRouter` fix it.
- `StudentUpdate`: PUT /api/student/:studentId. Three optional flags become
  an ordered `SET` list with 1/0 values, and the student id is bound last.
  The model also interprets the statement against a `students` table.

Modelling choices:
- JavaScript falsiness is explicit. An optional text field is falsy when it
  is absent or `""`, and an optional number when it is absent or `0`
  (module `Js`). The student update distinguishes `undefined` from `null`
  and from other values, so it uses a full `JsValue` type.
- Amounts are integers. `Number(...)` on numeric columns is the identity.
- MySQL's `affectedRows` for `INSERT ... ON DUPLICATE KEY UPDATE` is 1 for
  an insert and 2 for a changed row. For an unchanged row it is 0, or 1
  when the client sets CLIENT_FOUND_ROWS. The flag is a parameter
  (`Env.foundRows`).
- The upsert is assumed to collide on a unique key over
  (student_id, subject_id, date, period). The schema is not part of this
  model.
- Every query result is taken in table order.

## Model

| member | source | states |
|---|---|---|
| Fees.Classify | server.js:2036-2041 | The status is PAID iff paid ≥ total, PARTIAL iff 0 < paid < total, and NOT PAID otherwise. The three cases are exclusive and exhaustive. |
| Fees.ClassifyMonotone | server.js:2036-2041 | Paying more never gives a lower status in the order NOT PAID < PARTIAL < PAID. |
| Fees.FindFee | server.js:2022-2034 | Returns the first row matching (reg_no, fee_type), or none when no row matches. |
| Fees.AddPayment | server.js:2014-2058 | Answers 400 iff reg_no, fee_type or amount is falsy, and 404 iff no row matches. Neither case changes the table. On success, new paid = old amount_paid + amount, the status is classified from it, and only the rows with that fee id change. |
| Fees.PaymentTouchesOneRow | server.js:2034-2050 | Given a primary key, only the first matching row changes. Within it only amount_paid, status and updated_at change, and updated_at becomes the current time. |
| Fees.ZeroAmountRejected | server.js:2016-2018 | An amount of 0 is rejected as missing, and the table is unchanged. |
| Fees.NegativeAmountLowersStatus | server.js:2016-2041 | A negative amount passes the guard and can move a PAID fee to PARTIAL. |
| Fees.PaymentsCompose | server.js:2035-2050 | When a, b and a + b are non-zero and fee_id is unique, paying a and then b leaves the same answer and table as paying a + b once. |
| OverallAttendance.Tally | server.js:1214-1244 | total_present is the row count given at the start. jain + non_jain = hostel + day_scholar = number of rows, and boys + girls ≤ number of rows. |
| OverallAttendance.TallyCounts | server.js:1226-1237 | jain, hostel, boys and girls each count exactly the rows with that attribute. Only the exact genders 'M' and 'F' are counted. |
| OverallAttendance.TallyHistogram | server.js:1239-1243 | The dept_wise keys are exactly the departments in the rows, and each value is that department's row count. The same holds for class_wise and classes. |
| OverallAttendance.HistogramsSumToRows | server.js:1239-1243 | The dept_wise values sum to the number of rows, and so do the class_wise values. |
| OverallAttendance.Overall | server.js:1207-1244 | No rows gives 404. Otherwise total_present = number of rows and the counter identities hold. |
| OverallAttendance.OverallHistogramsSum | server.js:1215-1243 | In the answer, both histograms sum to total_present. |
| SubjectMerge.MapSet | server.js:627 | `Map.set` keeps an existing key in place with the new value, or appends a new key at the end. |
| SubjectMerge.Dedup | server.js:626-628 | The merged list is never longer than the input. Its content is stated by DedupKeys, DedupLastValue and DedupFirstOrder. |
| SubjectMerge.DedupKeys | server.js:626-628 | The merged list has one entry per subject_id, and its ids are exactly the input's ids. |
| SubjectMerge.DedupLastValue | server.js:626-628 | Each id's entry is the last input entry with that id. |
| SubjectMerge.DedupFirstOrder | server.js:626-628 | Entries are ordered by the first occurrence of their id. |
| SubjectMerge.HandledBy | server.js:598-601 | The handled subjects are exactly the rows whose staff_id is the caller. |
| SubjectMerge.AdvisedClasses | server.js:605-611 | The advised classes are exactly those whose ca_id or assigned_ca_id is the caller. |
| SubjectMerge.InClasses | server.js:612-615 | The class-advisor subjects are exactly the rows whose class is advised. |
| SubjectMerge.StaffSubjects | server.js:597-628 | Gives the handled rows. Gives no class-advisor subjects unless the role is "CA" or "Staff". Every class-advisor subject is flagged and belongs to an advised class. For those two roles, every subject row of an advised class appears, flagged, among the class-advisor subjects. |
| SubjectMerge.MergeShape | server.js:621-628 | Merging unflagged entries with flagged ones gives distinct ids, namely the union of both lists' ids. The first list's ids keep their order at the front. An entry is flagged iff its id occurs in the second list, and then it is the last copy from there. |
| SubjectMerge.StaffSubjectsMerge | server.js:621-628 | The merged list has distinct ids, namely the union of both lists' ids. The handled ids come first in their order. An entry has `from_ca` iff its id is a class-advisor subject, and then it is the last such copy. |
| SubjectMerge.MergeKeepsPositionTakesLater | server.js:626-628 | An id present in both lists sits where the first list put it and carries the last copy from the second list. |
| SubjectMerge.HandledAndAdvisedFlagged | server.js:597-628 | For the roles "CA" and "Staff", every subject the caller handles in a class they advise keeps its handled position in the merged list and is flagged `from_ca: true`. |
| SubjectMerge.HandledAndAdvisedExample | server.js:617-628 | Example: with Maths handled and advised, Physics only handled and Chemistry only advised, the list is Maths (flagged), Physics, Chemistry (flagged). |
| MarkAttendance.PermittedClasses | server.js:301 | The permitted classes are exactly the classes of access rows whose tag equals the handler's tag. The list is empty iff no row has that tag. |
| MarkAttendance.AffectedRows | server.js:322-331 | affectedRows is 0 exactly for an unchanged duplicate without found-rows, and 1 for a new key. |
| MarkAttendance.Process | server.js:309-332 | The loop never removes a key from the attendance table, and markedCount is at most the number of records. |
| MarkAttendance.ProcessKeys | server.js:309-332 | Afterwards the table's keys are the old keys plus the keys of accepted records. A record is accepted when it has all four fields, a known roll_no and a permitted class. |
| MarkAttendance.ProcessLastWriteWins | server.js:320-329 | A key named by accepted records holds the status and marked_by of the last of them. |
| MarkAttendance.ProcessUntouched | server.js:309-332 | A key that no accepted record names keeps its stored entry. |
| MarkAttendance.ProcessCount | server.js:331 | markedCount ≤ the number of accepted records, and equals it under found-rows. A zero count means the table is unchanged. |
| MarkAttendance.MarkLoop | server.js:307-332 | The imperative loop computes the fold: the same table and count, the same key set, and untouched keys unchanged. |
| MarkAttendance.Mark | server.js:283-340 | Answers 400 "No attendance data provided" iff the body is not an array or is empty, and 403 iff no access row has the tag; neither writes. Otherwise the table follows last-write-wins. When markedCount is 0 the answer is 400 "No attendance marked", and the table is as it was, though the transaction committed. |
| MarkAttendance.MarkServer | server.js:301-305 | The server.js copy answers 403 iff a non-empty body meets no access row tagged "CA". |
| MarkAttendance.MarkRouter | routes/attendanceRoutes.js:85-136 | The routes copy answers 403 iff a non-empty body meets no access row tagged lowercase "ca". |
| MarkAttendance.TwinsDifferOnlyInTag | routes/attendanceRoutes.js:99-130 | When the access rows permit the same classes under their tags, both copies give the same answer and table. |
| MarkAttendance.TagCaseDiverges | routes/attendanceRoutes.js:99-103 | With one "CA" access row, the server.js copy saves a record while the routes copy answers 403 and writes nothing. |
| StudentUpdate.BuildUpdate | server.js:1616-1638 | Answers 400 iff all three flags are undefined. Otherwise the SET columns are exactly the defined flags, in the order jain, hostel, bus. Each value is the flag's truthiness as 1/0, and the student id is bound last. |
| StudentUpdate.Sql | server.js:1636-1638 | The statement has one `?` per SET column plus one for the student id. |
| StudentUpdate.PlaceholdersMatchParams | server.js:1636-1639 | The statement text has exactly one `?` per bound value. |
| StudentUpdate.Execute | server.js:1638-1639 | The UPDATE keeps the set of students, changes no student other than the bound id, and a 400 answer leaves the table as it was. |
| StudentUpdate.UpdateSetsGivenFlags | server.js:1620-1639 | Running the statement sets each given flag of that student to its truthiness. Other flags and other students are unchanged. |

## Left out

- SQL execution, the connection pool, and transaction begin, commit and
  rollback (db.js). Every query result is a parameter, and every write is
  modelled by its effect on the table.
- Database and driver failures (the 500 answers). The model assumes every
  statement succeeds.
- The `date` filter of the overall-attendance query and the join that
  produces its rows. These are SQL, so the model starts from the joined
  rows.
- Authentication and role checks (`authenticateToken`, `authorize`). They
  are library and middleware calls outside these handlers.
- Request fields of other JSON types are not modelled. For example, a
  numeric string amount passed through `Number(...)`, or a boolean roll
  number. Such values go through JavaScript coercion.
- MySQL's type coercion when comparing a string parameter with an integer
  column, such as `student_id = ?`. Lookups are exact-key
  maps.
- Duplicate roll numbers in `students`. The directory map holds the row the
  query returns first.
- The add-payment read-then-update race outside a transaction. Concurrency
  is outside this model.
- The `updated_at = NOW()` clock. The time is a parameter.
- Fees.AddPayment: JavaScript numbers are IEEE doubles, and the model uses
  unbounded integers. The results differ only for amounts beyond 2^53 or
  with fractions.
- Body elements of POST /api/attendance that are `null` or `undefined`.
  Destructuring them throws a TypeError, so the handler rolls back and
  answers 500. The model takes every element as a record object.
- Fees.FindFee: reg_no and fee_type are compared exactly. MySQL's default
  collations compare them case-insensitively and, depending on the
  collation, also ignore accents or trailing spaces, so the real lookup can
  match rows the model does not.
- Fees.AddPayment: amount_paid and total_amount are integers. A NULL
  amount_paid gives `Number(null) = 0`, and a NULL total_amount compares
  as 0, so any non-negative new amount counts as PAID.
- MarkAttendance.KeyOf: the date is kept as the text sent. MySQL stores a
  DATE, so two spellings of one day name the same attendance row there.
- OverallAttendance.Tally: dept_id and class_id are integers. A NULL id
  would be counted under the object key "null".
- In routes/attendanceRoutes.js, `pool` is never imported, so that copy
  fails at run time. The model gives the logic the copy evidently intends.
- Percentages and rounding computed in SQL or with `Math.round` and
  `toFixed`, and the wall-clock late-entry gate. These are floating point
  or clock-dependent and are not part of this model.

=== FILE: fees.dfy ===
/** The add-payment handler of the fee ledger (POST /api/fees/add-payment):
    validate the request, find the fee row for (reg_no, fee_type), add the
    payment to the amount paid and re-classify the row's status. */
module Fees {
  import opened Js

  /** The three statuses the handler writes. */
  datatype FeeStatus = Paid | Partial | NotPaid

  /** One row of the `fees` table. Amounts are whole currency units;
      `updatedAt` is the timestamp written by `NOW()`. */
  datatype FeeRecord = FeeRecord(
    feeId: int,
    regNo: string,
    feeType: string,
    totalAmount: int,
    amountPaid: int,
    status: FeeStatus,
    updatedAt: int)

  /** The request body; `None` is a property the body does not carry. */
  datatype PaymentRequest = PaymentRequest(regNo: Option<string>, feeType: Option<string>, amount: Option<int>)

  /** What the handler answers: 400 "Missing fields", 404 "Fee record not
      found", or success with the new amount paid and status. */
  datatype PaymentResponse = MissingFields | FeeNotFound | PaymentAdded(paid: int, status: FeeStatus)

  /** Position of a status in the order NOT PAID < PARTIAL < PAID. */
  function Rank(s: FeeStatus): nat
  {
    match s
    case NotPaid => 0
    case Partial => 1
    case Paid => 2
  }

  /** Status of a fee whose total is `total` once `paid` has been paid:
      exactly one of the three, decided by where `paid` falls. */
  function Classify(total: int, paid: int): (s: FeeStatus)
    ensures s == Paid <==> total <= paid
    ensures s == Partial <==> 0 < paid < total
    ensures s == NotPaid <==> paid <= 0 && paid < total
  {
    if paid >= total then Paid
    else if paid > 0 then Partial
    else NotPaid
  }

  /** Paying more never yields a lower status. */
  lemma ClassifyMonotone(total: int, paid: int, paid': int)
    requires paid <= paid'
    ensures Rank(Classify(total, paid)) <= Rank(Classify(total, paid'))
  {
  }

  /** True when the request carries every field the handler insists on. */
  predicate FieldsPresent(req: PaymentRequest)
  {
    TruthyText(req.regNo) && TruthyText(req.feeType) && TruthyNumber(req.amount)
  }

  predicate Matches(f: FeeRecord, regNo: string, feeType: string)
  {
    f.regNo == regNo && f.feeType == feeType
  }

  /** Index of the first row for (regNo, feeType), the row the handler
      reads as `existing[0]`. */
  function FindFee(fees: seq<FeeRecord>, regNo: string, feeType: string): (r: Option<nat>)
    ensures r.Some? ==> r.value < |fees| && Matches(fees[r.value], regNo, feeType)
    ensures r.Some? ==> forall j :: 0 <= j < r.value ==> !Matches(fees[j], regNo, feeType)
    ensures r.None? ==> forall j :: 0 <= j < |fees| ==> !Matches(fees[j], regNo, feeType)
  {
    if |fees| == 0 then None
    else if Matches(fees[0], regNo, feeType) then Some(0)
    else
      match FindFee(fees[1..], regNo, feeType)
      case None => None
      case Some(i) => Some(i + 1)
  }

  /** The write-back: every row carrying the fee id gets the new amount
      paid, the new status and the current time. */
  function UpdateById(fees: seq<FeeRecord>, feeId: int, paid: int, status: FeeStatus, now: int): (r: seq<FeeRecord>)
    ensures |r| == |fees|
    ensures forall j :: 0 <= j < |fees| && fees[j].feeId != feeId ==> r[j] == fees[j]
    ensures forall j :: 0 <= j < |fees| && fees[j].feeId == feeId ==>
      r[j] == fees[j].(amountPaid := paid, status := status, updatedAt := now)
  {
    seq(|fees|, j requires 0 <= j < |fees| =>
      if fees[j].feeId == feeId then fees[j].(amountPaid := paid, status := status, updatedAt := now)
      else fees[j])
  }

  /** The handler: returns its answer and the fee table afterwards. */
  function AddPayment(fees: seq<FeeRecord>, req: PaymentRequest, now: int): (r: (PaymentResponse, seq<FeeRecord>))
    ensures r.0 == MissingFields <==> !FieldsPresent(req)
    ensures r.0 == FeeNotFound <==>
      FieldsPresent(req) && forall j :: 0 <= j < |fees| ==> !Matches(fees[j], req.regNo.value, req.feeType.value)
    ensures !r.0.PaymentAdded? ==> r.1 == fees
    ensures r.0.PaymentAdded? ==> (FieldsPresent(req) &&
      var i := FindFee(fees, req.regNo.value, req.feeType.value).value;
      && r.0.paid == fees[i].amountPaid + req.amount.value
      && r.0.status == Classify(fees[i].totalAmount, r.0.paid)
      && |r.1| == |fees|
      && (forall j :: 0 <= j < |fees| && fees[j].feeId != fees[i].feeId ==> r.1[j] == fees[j])
      && (forall j :: 0 <= j < |fees| && fees[j].feeId == fees[i].feeId ==>
            r.1[j] == fees[j].(amountPaid := r.0.paid, status := r.0.status, updatedAt := now)))
  {
    if !FieldsPresent(req) then (MissingFields, fees)
    else
      match FindFee(fees, req.regNo.value, req.feeType.value)
      case None => (FeeNotFound, fees)
      case Some(i) =>
        var paid := fees[i].amountPaid + req.amount.value;
        var status := Classify(fees[i].totalAmount, paid);
        (PaymentAdded(paid, status), UpdateById(fees, fees[i].feeId, paid, status, now))
  }

  /** `fee_id` is the table's primary key. */
  predicate UniqueIds(fees: seq<FeeRecord>)
  {
    forall j, k :: 0 <= j < k < |fees| ==> fees[j].feeId != fees[k].feeId
  }

  /** With a primary key, a payment rewrites the first row for
      (reg_no, fee_type) and no other row; only the amount paid, the status
      and the timestamp of that row change. */
  lemma PaymentTouchesOneRow(fees: seq<FeeRecord>, req: PaymentRequest, now: int)
    requires UniqueIds(fees)
    requires AddPayment(fees, req, now).0.PaymentAdded?
    ensures FieldsPresent(req)
    ensures var i := FindFee(fees, req.regNo.value, req.feeType.value).value;
      var r := AddPayment(fees, req, now);
      && |r.1| == |fees|
      && (forall j :: 0 <= j < |fees| && j != i ==> r.1[j] == fees[j])
      && r.1[i].feeId == fees[i].feeId && r.1[i].regNo == fees[i].regNo
      && r.1[i].feeType == fees[i].feeType && r.1[i].totalAmount == fees[i].totalAmount
      && r.1[i].amountPaid == fees[i].amountPaid + req.amount.value
      && r.1[i].status == Classify(fees[i].totalAmount, r.1[i].amountPaid)
      && r.1[i].updatedAt == now
  {
  }

  /** A zero amount is falsy and is refused like a missing one, leaving
      the table untouched. */
  lemma ZeroAmountRejected(fees: seq<FeeRecord>, regNo: Option<string>, feeType: Option<string>, now: int)
    ensures AddPayment(fees, PaymentRequest(regNo, feeType, Some(0)), now) == (MissingFields, fees)
  {
  }

  /** A negative amount passes the guard and can lower a PAID fee to PARTIAL. */
  lemma NegativeAmountLowersStatus()
    ensures var fees := [FeeRecord(1, "R1", "TUITION", 100, 100, Paid, 0)];
      AddPayment(fees, PaymentRequest(Some("R1"), Some("TUITION"), Some(-40)), 5)
        == (PaymentAdded(60, Partial), [FeeRecord(1, "R1", "TUITION", 100, 60, Partial, 5)])
  {
    var fees := [FeeRecord(1, "R1", "TUITION", 100, 100, Paid, 0)];
    assert FindFee(fees, "R1", "TUITION") == Some(0);
    var r := AddPayment(fees, PaymentRequest(Some("R1"), Some("TUITION"), Some(-40)), 5);
    assert r.0 == PaymentAdded(60, Partial);
    assert |r.1| == 1 && r.1[0] == FeeRecord(1, "R1", "TUITION", 100, 60, Partial, 5);
    assert r.1 == [FeeRecord(1, "R1", "TUITION", 100, 60, Partial, 5)];
  }

  /** Two successive payments of `a` then `b` leave the table exactly as one
      payment of `a + b` at the later time would. */
  lemma {:induction false} PaymentsCompose(fees: seq<FeeRecord>, regNo: string, feeType: string,
                                           a: int, b: int, t1: int, t2: int)
    requires regNo != "" && feeType != "" && a != 0 && b != 0 && a + b != 0
    requires UniqueIds(fees)
    ensures var first := AddPayment(fees, PaymentRequest(Some(regNo), Some(feeType), Some(a)), t1);
      var second := AddPayment(first.1, PaymentRequest(Some(regNo), Some(feeType), Some(b)), t2);
      var once := AddPayment(fees, PaymentRequest(Some(regNo), Some(feeType), Some(a + b)), t2);
      second == once
  {
    var first := AddPayment(fees, PaymentRequest(Some(regNo), Some(feeType), Some(a)), t1);
    var second := AddPayment(first.1, PaymentRequest(Some(regNo), Some(feeType), Some(b)), t2);
    var once := AddPayment(fees, PaymentRequest(Some(regNo), Some(feeType), Some(a + b)), t2);
    match FindFee(fees, regNo, feeType)
    case None =>
      assert first == (FeeNotFound, fees);
    case Some(i) =>
      PaymentTouchesOneRow(fees, PaymentRequest(Some(regNo), Some(feeType), Some(a)), t1);
      FindFeeStable(fees, first.1, regNo, feeType, i);
      var fid := fees[i].feeId;
      assert first.1[i].feeId == fid;
      assert first.1[i].amountPaid == fees[i].amountPaid + a;
      assert first.1[i].totalAmount == fees[i].totalAmount;
      assert second.0 == once.0;
      assert |second.1| == |once.1|;
      forall j | 0 <= j < |fees|
        ensures second.1[j] == once.1[j]
      {
        assert first.1[j].feeId == fees[j].feeId;
      }
      assert second.1 == once.1;
  }

  /** Rewriting only payment fields of rows keeps the first match in place. */
  lemma FindFeeStable(fees: seq<FeeRecord>, fees': seq<FeeRecord>, regNo: string, feeType: string, i: nat)
    requires |fees'| == |fees|
    requires forall j :: 0 <= j < |fees| ==>
      fees'[j].regNo == fees[j].regNo && fees'[j].feeType == fees[j].feeType
    requires FindFee(fees, regNo, feeType) == Some(i)
    ensures FindFee(fees', regNo, feeType) == Some(i)
  {
  }
}

=== FILE: js.dfy ===
/** Shared vocabulary for request payloads: optional fields and the
    JavaScript notion of a "falsy" value that the handlers test with `!x`. */
module Js {

  /** A request field that may be absent (`undefined`). */
  datatype Option<+T> = None | Some(value: T)

  /** A JSON value as seen by a handler after body parsing. `Undefined`
      stands for a property the body does not carry; `Other` stands for
      arrays and objects, which are always truthy. Numbers are integers. */
  datatype JsValue = Undefined | Null | Bool(b: bool) | Num(n: int) | Str(s: string) | Other

  /** JavaScript truthiness: `false`, `0`, `""`, `null` and `undefined` are falsy. */
  predicate Truthy(v: JsValue)
  {
    match v
    case Undefined => false
    case Null => false
    case Bool(b) => b
    case Num(n) => n != 0
    case Str(s) => s != ""
    case Other => true
  }

  /** Truthiness of an optional string field: absent and empty are falsy. */
  predicate TruthyText(f: Option<string>)
  {
    f.Some? && f.value != ""
  }

  /** Truthiness of an optional integer field: absent and zero are falsy. */
  predicate TruthyNumber(f: Option<int>)
  {
    f.Some? && f.value != 0
  }
}

=== FILE: mark_attendance.dfy ===
/** Batch attendance marking (POST /api/attendance), present twice in the
    code base: in server.js, which accepts access rows tagged "CA", and in
    routes/attendanceRoutes.js, which accepts rows tagged "ca". Records are
    filtered, then upserted into the attendance table with last-write-wins
    semantics. */
module MarkAttendance {
  import opened Js

  /** One element of the request array. */
  datatype AttendanceRecord = AttendanceRecord(
    regNo: Option<string>,
    subjectId: Option<int>,
    date: Option<string>,
    period: Option<int>,
    status: Option<string>)

  /** The first student row the directory lookup by roll number yields:
      the student's id and class. */
  datatype StudentRef = StudentRef(studentId: int, classId: int)

  /** One row of `staff_class_access` for the caller. */
  datatype AccessRow = AccessRow(classId: int, accessType: string)

  /** The unique key the `ON DUPLICATE KEY UPDATE` collides on. */
  datatype AttendanceKey = AttendanceKey(studentId: int, subjectId: int, date: string, period: int)

  /** The columns an upsert writes besides the key; `None` is SQL NULL. */
  datatype AttendanceEntry = AttendanceEntry(status: Option<string>, markedBy: int)

  type Store = map<AttendanceKey, AttendanceEntry>

  /** 400 "No attendance data provided", 403, 400 "No attendance marked"
      (after the commit), or success with the number of marked records. */
  datatype MarkResponse = NoData | NotAllowed | NoneMarked | Saved(count: nat)

  /** What the loop reads besides the records: the student directory, the
      permitted classes, the caller's id, and whether the driver reports
      found rather than changed rows (MySQL's CLIENT_FOUND_ROWS flag). */
  datatype Env = Env(dir: map<string, StudentRef>, permitted: seq<int>, markedBy: int, foundRows: bool)

  /** The access tag of the server.js handler. */
  const ServerTag: string := "CA"

  /** The access tag of the routes/attendanceRoutes.js handler. */
  const RouterTag: string := "ca"

  /** The classes of the caller's access rows whose tag equals `tag`
      exactly, in row order. */
  function PermittedClasses(access: seq<AccessRow>, tag: string): (r: seq<int>)
    ensures forall c :: c in r <==> exists a :: a in access && a.accessType == tag && a.classId == c
    ensures |r| == 0 <==> forall a :: a in access ==> a.accessType != tag
  {
    if |access| == 0 then []
    else
      var rest := PermittedClasses(access[1..], tag);
      assert forall a :: a in access <==> a == access[0] || a in access[1..];
      if access[0].accessType == tag then [access[0].classId] + rest else rest
  }

  /** All four identifying fields of a record are truthy. */
  predicate Complete(rec: AttendanceRecord)
  {
    TruthyText(rec.regNo) && TruthyNumber(rec.subjectId) && TruthyText(rec.date) && TruthyNumber(rec.period)
  }

  /** A record survives the three `continue`s of the loop. */
  predicate Accepted(rec: AttendanceRecord, env: Env)
  {
    Complete(rec) && rec.regNo.value in env.dir && env.dir[rec.regNo.value].classId in env.permitted
  }

  function KeyOf(rec: AttendanceRecord, env: Env): AttendanceKey
    requires Accepted(rec, env)
  {
    AttendanceKey(env.dir[rec.regNo.value].studentId, rec.subjectId.value, rec.date.value, rec.period.value)
  }

  function EntryOf(rec: AttendanceRecord, env: Env): AttendanceEntry
  {
    AttendanceEntry(rec.status, env.markedBy)
  }

  /** MySQL's `affectedRows` for `INSERT ... ON DUPLICATE KEY UPDATE`:
      1 for a new row, 2 for a changed row, and for a row left as it was
      0, or 1 when the client asked for found rows. */
  function AffectedRows(st: Store, k: AttendanceKey, e: AttendanceEntry, foundRows: bool): (n: nat)
    ensures n == 0 <==> k in st && st[k] == e && !foundRows
    ensures k !in st ==> n == 1
  {
    if k !in st then 1
    else if st[k] == e then (if foundRows then 1 else 0)
    else 2
  }

  /** The `for` loop: the store after upserting every accepted record, and
      `markedCount`. */
  function Process(store: Store, recs: seq<AttendanceRecord>, env: Env): (r: (Store, nat))
    ensures store.Keys <= r.0.Keys
    ensures r.1 <= |recs|
  {
    if |recs| == 0 then (store, 0)
    else
      var (st, n) := Process(store, recs[..|recs| - 1], env);
      var rec := recs[|recs| - 1];
      if Accepted(rec, env) then
        var k := KeyOf(rec, env);
        var e := EntryOf(rec, env);
        (st[k := e], n + if AffectedRows(st, k, e, env.foundRows) > 0 then 1 else 0)
      else (st, n)
  }

  /** Record `i` is accepted and upserts key `k`. */
  predicate Writes(recs: seq<AttendanceRecord>, i: int, k: AttendanceKey, env: Env)
  {
    0 <= i < |recs| && Accepted(recs[i], env) && KeyOf(recs[i], env) == k
  }

  /** Number of accepted records. */
  function AcceptedCount(recs: seq<AttendanceRecord>, env: Env): nat
  {
    if |recs| == 0 then 0
    else AcceptedCount(recs[..|recs| - 1], env) + if Accepted(recs[|recs| - 1], env) then 1 else 0
  }

  /** One step of the loop, seen from the accumulated store. */
  lemma ProcessStep(store: Store, recs: seq<AttendanceRecord>, env: Env)
    requires |recs| > 0
    ensures var front := Process(store, recs[..|recs| - 1], env).0;
      var last := recs[|recs| - 1];
      Process(store, recs, env).0 ==
        if Accepted(last, env) then front[KeyOf(last, env) := EntryOf(last, env)] else front
  {
  }

  /** Dropping the last record does not change what the others write. */
  lemma WritesFront(recs: seq<AttendanceRecord>, i: int, k: AttendanceKey, env: Env)
    requires 0 <= i < |recs| - 1
    ensures Writes(recs, i, k, env) == Writes(recs[..|recs| - 1], i, k, env)
  {
    assert recs[..|recs| - 1][i] == recs[i];
  }

  /** The keys of the table afterwards are the old keys and the keys of
      accepted records. */
  lemma {:induction false} ProcessKeys(store: Store, recs: seq<AttendanceRecord>, env: Env)
    ensures forall k :: k in Process(store, recs, env).0 <==>
      k in store || exists i :: Writes(recs, i, k, env)
  {
    if |recs| > 0 {
      var front := recs[..|recs| - 1];
      var n := |recs| - 1;
      ProcessKeys(store, front, env);
      ProcessStep(store, recs, env);
      forall k
        ensures k in Process(store, recs, env).0 <==> k in store || exists i :: Writes(recs, i, k, env)
      {
        if Writes(recs, n, k, env) {
        } else {
          if i :| Writes(recs, i, k, env) {
            WritesFront(recs, i, k, env);
          }
          if i :| Writes(front, i, k, env) {
            WritesFront(recs, i, k, env);
          }
        }
      }
    }
  }

  /** Last write wins: a key named by an accepted record holds the entry of
      the last accepted record naming it. */
  lemma {:induction false} ProcessLastWriteWins(store: Store, recs: seq<AttendanceRecord>, env: Env)
    ensures forall k, i :: Writes(recs, i, k, env) && (forall j :: i < j < |recs| ==> !Writes(recs, j, k, env)) ==>
      k in Process(store, recs, env).0 && Process(store, recs, env).0[k] == EntryOf(recs[i], env)
  {
    if |recs| > 0 {
      var front := recs[..|recs| - 1];
      var n := |recs| - 1;
      ProcessLastWriteWins(store, front, env);
      ProcessStep(store, recs, env);
      var st := Process(store, recs, env).0;
      forall k, i | Writes(recs, i, k, env) && (forall j :: i < j < |recs| ==> !Writes(recs, j, k, env))
        ensures k in st && st[k] == EntryOf(recs[i], env)
      {
        if i < n {
          assert !Writes(recs, n, k, env);
          WritesFront(recs, i, k, env);
          forall j | i < j < |front|
            ensures !Writes(front, j, k, env)
          {
            WritesFront(recs, j, k, env);
          }
        }
      }
    }
  }

  /** A key no accepted record names keeps its old entry. */
  lemma {:induction false} ProcessUntouched(store: Store, recs: seq<AttendanceRecord>, env: Env)
    ensures forall k :: k in store && (forall i :: !Writes(recs, i, k, env)) ==>
      k in Process(store, recs, env).0 && Process(store, recs, env).0[k] == store[k]
  {
    if |recs| > 0 {
      var front := recs[..|recs| - 1];
      var n := |recs| - 1;
      ProcessUntouched(store, front, env);
      ProcessStep(store, recs, env);
      forall k | k in store && (forall i :: !Writes(recs, i, k, env))
        ensures k in Process(store, recs, env).0 && Process(store, recs, env).0[k] == store[k]
      {
        forall i | 0 <= i < |front|
          ensures !Writes(front, i, k, env)
        {
          WritesFront(recs, i, k, env);
        }
        assert !Writes(recs, n, k, env);
      }
    }
  }

  /** `markedCount` never exceeds the accepted records and equals their
      number when found rows are reported; a zero count leaves the store as
      it was. */
  lemma {:induction false} ProcessCount(store: Store, recs: seq<AttendanceRecord>, env: Env)
    ensures Process(store, recs, env).1 <= AcceptedCount(recs, env)
    ensures env.foundRows ==> Process(store, recs, env).1 == AcceptedCount(recs, env)
    ensures Process(store, recs, env).1 == 0 ==> Process(store, recs, env).0 == store
  {
    if |recs| > 0 {
      ProcessCount(store, recs[..|recs| - 1], env);
    }
  }

  /** The handler with its access tag as a parameter; `body` is `None` when
      the request body is not an array. Returns the answer and the
      attendance table afterwards. */
  function Mark(tag: string, body: Option<seq<AttendanceRecord>>, access: seq<AccessRow>,
                dir: map<string, StudentRef>, store: Store, markedBy: int, foundRows: bool): (r: (MarkResponse, Store))
    ensures r.0 == NoData <==> body.None? || |body.value| == 0
    ensures r.0 == NotAllowed <==>
      body.Some? && |body.value| > 0 && forall a :: a in access ==> a.accessType != tag
    ensures r.0.NoData? || r.0.NotAllowed? || r.0.NoneMarked? ==> r.1 == store
    ensures (r.0.NoneMarked? || r.0.Saved?) ==>
      var recs := body.value;
      var env := Env(dir, PermittedClasses(access, tag), markedBy, foundRows);
      && (forall k :: k in r.1 <==> k in store || exists i :: Writes(recs, i, k, env))
      && (forall k, i :: Writes(recs, i, k, env) && (forall j :: i < j < |recs| ==> !Writes(recs, j, k, env)) ==>
            k in r.1 && r.1[k] == EntryOf(recs[i], env))
      && (forall k :: k in store && (forall i :: !Writes(recs, i, k, env)) ==> r.1[k] == store[k])
      && (r.0.Saved? ==> 0 < r.0.count <= AcceptedCount(recs, env))
      && (foundRows ==> (r.0.NoneMarked? <==> AcceptedCount(recs, env) == 0))
      && (foundRows && r.0.Saved? ==> r.0.count == AcceptedCount(recs, env))
  {
    if body.None? || |body.value| == 0 then (NoData, store)
    else
      var permitted := PermittedClasses(access, tag);
      if |permitted| == 0 then (NotAllowed, store)
      else
        var env := Env(dir, permitted, markedBy, foundRows);
        var res := Process(store, body.value, env);
        ProcessKeys(store, body.value, env);
        ProcessLastWriteWins(store, body.value, env);
        ProcessUntouched(store, body.value, env);
        ProcessCount(store, body.value, env);
        if res.1 == 0 then (NoneMarked, res.0) else (Saved(res.1), res.0)
  }

  /** The server.js handler, accepting access rows tagged "CA". */
  function MarkServer(body: Option<seq<AttendanceRecord>>, access: seq<AccessRow>,
                      dir: map<string, StudentRef>, store: Store, markedBy: int, foundRows: bool): (r: (MarkResponse, Store))
    ensures r.0 == NotAllowed <==>
      body.Some? && |body.value| > 0 && forall a :: a in access ==> a.accessType != "CA"
  {
    Mark(ServerTag, body, access, dir, store, markedBy, foundRows)
  }

  /** The routes/attendanceRoutes.js handler, accepting rows tagged "ca". */
  function MarkRouter(body: Option<seq<AttendanceRecord>>, access: seq<AccessRow>,
                      dir: map<string, StudentRef>, store: Store, markedBy: int, foundRows: bool): (r: (MarkResponse, Store))
    ensures r.0 == NotAllowed <==>
      body.Some? && |body.value| > 0 && forall a :: a in access ==> a.accessType != "ca"
  {
    Mark(RouterTag, body, access, dir, store, markedBy, foundRows)
  }

  /** The loop as written: one pass over the records, skipping the
      rejected ones and upserting the others. */
  method MarkLoop(store: Store, recs: seq<AttendanceRecord>, env: Env) returns (st: Store, count: nat)
    ensures (st, count) == Process(store, recs, env)
    ensures count <= AcceptedCount(recs, env)
    ensures forall k :: k in st <==> k in store || exists i :: Writes(recs, i, k, env)
    ensures forall k :: k in store && (forall i :: !Writes(recs, i, k, env)) ==> k in st && st[k] == store[k]
  {
    st, count := store, 0;
    var i := 0;
    while i < |recs|
      invariant 0 <= i <= |recs|
      invariant (st, count) == Process(store, recs[..i], env)
    {
      var rec := recs[i];
      assert recs[..i + 1][..i] == recs[..i];
      if Complete(rec) && rec.regNo.value in env.dir {
        var student := env.dir[rec.regNo.value];
        if student.classId in env.permitted {
          var k := AttendanceKey(student.studentId, rec.subjectId.value, rec.date.value, rec.period.value);
          var e := AttendanceEntry(rec.status, env.markedBy);
          var affected := AffectedRows(st, k, e, env.foundRows);
          st := st[k := e];
          if affected > 0 {
            count := count + 1;
          }
        }
      }
      i := i + 1;
    }
    assert recs[..|recs|] == recs;
    ProcessCount(store, recs, env);
    ProcessKeys(store, recs, env);
    ProcessUntouched(store, recs, env);
  }

  /** The loop reads the permitted classes only through `includes`, so two
      permitted lists with the same members give the same outcome. */
  lemma {:induction false} ProcessPermittedMembers(store: Store, recs: seq<AttendanceRecord>, env: Env, env': Env)
    requires env'.dir == env.dir && env'.markedBy == env.markedBy && env'.foundRows == env.foundRows
    requires forall c :: c in env.permitted <==> c in env'.permitted
    ensures Process(store, recs, env) == Process(store, recs, env')
  {
    if |recs| > 0 {
      ProcessPermittedMembers(store, recs[..|recs| - 1], env, env');
    }
  }

  /** The two copies of the handler differ only in the access tag: given
      access rows that permit the same classes under their respective tags,
      they answer alike and leave the same table. */
  lemma TwinsDifferOnlyInTag(body: Option<seq<AttendanceRecord>>, access: seq<AccessRow>, access': seq<AccessRow>,
                             dir: map<string, StudentRef>, store: Store, markedBy: int, foundRows: bool)
    requires forall c :: c in PermittedClasses(access, ServerTag) <==> c in PermittedClasses(access', RouterTag)
    ensures MarkServer(body, access, dir, store, markedBy, foundRows) == MarkRouter(body, access', dir, store, markedBy, foundRows)
  {
    var p := PermittedClasses(access, ServerTag);
    var p' := PermittedClasses(access', RouterTag);
    assert (|p| == 0) == (|p'| == 0) by {
      if |p| > 0 {
        assert p[0] in p;
      }
      if |p'| > 0 {
        assert p'[0] in p';
      }
    }
    if body.Some? {
      ProcessPermittedMembers(store, body.value, Env(dir, p, markedBy, foundRows), Env(dir, p', markedBy, foundRows));
    }
  }

  /** Access rows stored with the upper-case tag let the server.js copy
      mark attendance while the routes copy answers 403. */
  lemma TagCaseDiverges()
    ensures var body := Some([AttendanceRecord(Some("21CS001"), Some(5), Some("2024-07-01"), Some(1), Some("Present"))]);
      var access := [AccessRow(7, "CA")];
      var dir := map["21CS001" := StudentRef(42, 7)];
      && MarkServer(body, access, dir, map[], 9, true).0 == Saved(1)
      && MarkRouter(body, access, dir, map[], 9, true) == (NotAllowed, map[])
  {
  }
}

=== FILE: overall_attendance.dfy ===
/** The overall-attendance summary (GET /api/overallattendance): one pass
    over the "Present" rows joined with the student directory, producing
    attribute counters and per-department and per-class histograms. */
module OverallAttendance {
  import opened Js

  /** One row of the join: the student's attributes for a present mark.
      `jain` and `hostel` are the truthiness of their TINYINT columns. */
  datatype PresentRow = PresentRow(
    studentId: int,
    jain: bool,
    hostel: bool,
    gender: Option<string>,
    deptId: int,
    classId: int)

  /** The JSON object the handler answers with. */
  datatype Stats = Stats(
    totalPresent: nat,
    jain: nat,
    nonJain: nat,
    boys: nat,
    girls: nat,
    hostel: nat,
    dayScholar: nat,
    deptWise: map<int, nat>,
    classWise: map<int, nat>)

  /** 404 "No attendance data found", or the statistics. */
  datatype StatsResponse = NoData | StatsReady(stats: Stats)

  predicate IsJain(r: PresentRow) { r.jain }
  predicate IsHostel(r: PresentRow) { r.hostel }
  predicate IsBoy(r: PresentRow) { r.gender == Some("M") }
  predicate IsGirl(r: PresentRow) { r.gender == Some("F") }

  /** Number of rows satisfying `p`: the reference the counters are held to. */
  function CountIf(rows: seq<PresentRow>, p: PresentRow -> bool): nat
  {
    if |rows| == 0 then 0
    else CountIf(rows[..|rows| - 1], p) + (if p(rows[|rows| - 1]) then 1 else 0)
  }

  /** The two histograms of the answer: per department and per class. */
  datatype Axis = Dept | Class

  /** The key a row is counted under in the histogram of `a`. */
  function Bucket(r: PresentRow, a: Axis): int
  {
    match a
    case Dept => r.deptId
    case Class => r.classId
  }

  /** The histogram of `a` inside the answer. */
  function Histogram(s: Stats, a: Axis): map<int, nat>
  {
    match a
    case Dept => s.deptWise
    case Class => s.classWise
  }

  /** Number of rows counted under key `k` of the histogram of `a`. */
  function CountKey(rows: seq<PresentRow>, a: Axis, k: int): nat
  {
    if |rows| == 0 then 0
    else CountKey(rows[..|rows| - 1], a, k) + (if Bucket(rows[|rows| - 1], a) == k then 1 else 0)
  }

  /** The keys occurring in the rows for the histogram of `a`. */
  function Keys(rows: seq<PresentRow>, a: Axis): set<int>
  {
    set r | r in rows :: Bucket(r, a)
  }

  /** Count one more occurrence of `k`, starting a new bucket at 1. */
  function Bump(h: map<int, nat>, k: int): (h': map<int, nat>)
    ensures h'.Keys == h.Keys + {k}
    ensures h'[k] == (if k in h then h[k] else 0) + 1
    ensures forall j :: j in h && j != k ==> h'[j] == h[j]
  {
    h[k := (if k in h then h[k] else 0) + 1]
  }

  /** The body of the `forEach` callback. */
  function Step(s: Stats, r: PresentRow): Stats
  {
    s.(jain := if r.jain then s.jain + 1 else s.jain,
       nonJain := if r.jain then s.nonJain else s.nonJain + 1,
       boys := if r.gender == Some("M") then s.boys + 1 else s.boys,
       girls := if r.gender == Some("F") then s.girls + 1 else s.girls,
       hostel := if r.hostel then s.hostel + 1 else s.hostel,
       dayScholar := if r.hostel then s.dayScholar else s.dayScholar + 1,
       deptWise := Bump(s.deptWise, r.deptId),
       classWise := Bump(s.classWise, r.classId))
  }

  /** The counters after the `forEach` over `rows`, starting from zero
      counters and `total_present` already set to `total`. */
  function Tally(total: nat, rows: seq<PresentRow>): (s: Stats)
    ensures s.totalPresent == total
    ensures s.jain + s.nonJain == |rows|
    ensures s.hostel + s.dayScholar == |rows|
    ensures s.boys + s.girls <= |rows|
  {
    if |rows| == 0 then Stats(total, 0, 0, 0, 0, 0, 0, map[], map[])
    else Step(Tally(total, rows[..|rows| - 1]), rows[|rows| - 1])
  }

  /** Each attribute counter counts exactly the rows with that attribute. */
  lemma {:induction false} TallyCounts(total: nat, rows: seq<PresentRow>)
    ensures Tally(total, rows).jain == CountIf(rows, IsJain)
    ensures Tally(total, rows).hostel == CountIf(rows, IsHostel)
    ensures Tally(total, rows).boys == CountIf(rows, IsBoy)
    ensures Tally(total, rows).girls == CountIf(rows, IsGirl)
  {
    if |rows| > 0 {
      TallyCounts(total, rows[..|rows| - 1]);
    }
  }

  /** dept_wise (and likewise class_wise) has a key for exactly the
      departments (classes) occurring in the rows, each holding the number
      of rows of that department (class). */
  lemma {:induction false} TallyHistogram(total: nat, rows: seq<PresentRow>, a: Axis)
    ensures Histogram(Tally(total, rows), a).Keys == Keys(rows, a)
    ensures forall k :: k in Histogram(Tally(total, rows), a) ==> Histogram(Tally(total, rows), a)[k] == CountKey(rows, a, k)
  {
    if |rows| > 0 {
      var front := rows[..|rows| - 1];
      var last := rows[|rows| - 1];
      TallyHistogram(total, front, a);
      assert rows == front + [last];
      assert Keys(rows, a) == Keys(front, a) + {Bucket(last, a)};
      var h := Histogram(Tally(total, front), a);
      assert Histogram(Tally(total, rows), a) == Bump(h, Bucket(last, a));
      forall k | k in Histogram(Tally(total, rows), a)
        ensures Histogram(Tally(total, rows), a)[k] == CountKey(rows, a, k)
      {
        if k !in h {
          CountKeyAbsent(front, a, k);
        }
      }
    }
  }

  lemma {:induction false} CountKeyAbsent(rows: seq<PresentRow>, a: Axis, k: int)
    requires k !in Keys(rows, a)
    ensures CountKey(rows, a, k) == 0
  {
    if |rows| > 0 {
      assert rows[|rows| - 1] in rows;
      var front := rows[..|rows| - 1];
      assert forall r :: r in front ==> r in rows;
      CountKeyAbsent(front, a, k);
    }
  }

  /** The handler after its query: 404 on no rows, otherwise the tally. */
  function Overall(rows: seq<PresentRow>): (r: StatsResponse)
    ensures r.NoData? <==> |rows| == 0
    ensures r.StatsReady? ==>
      && r.stats.totalPresent == |rows|
      && r.stats.jain + r.stats.nonJain == r.stats.totalPresent
      && r.stats.hostel + r.stats.dayScholar == r.stats.totalPresent
      && r.stats.boys + r.stats.girls <= r.stats.totalPresent
  {
    if |rows| == 0 then NoData else StatsReady(Tally(|rows|, rows))
  }

  /** Sum of the values of a histogram. */
  ghost function Total(h: map<int, nat>): nat
    decreases |h|
  {
    if |h| == 0 then 0
    else
      var k := Pick(h.Keys);
      h[k] + Total(h - {k})
  }

  lemma EmptyIfNoElement(s: set<int>)
    ensures (forall x :: x !in s) ==> s == {}
  {
    if forall x :: x !in s {
      assert s == {};
    }
  }

  /** Some element of a non-empty set. */
  ghost function Pick(s: set<int>): (k: int)
    requires s != {}
    ensures k in s
  {
    EmptyIfNoElement(s);
    var k :| k in s; k
  }

  /** The sum does not depend on which key is taken out first. */
  lemma {:induction false} TotalRemove(h: map<int, nat>, k: int)
    requires k in h
    ensures Total(h) == h[k] + Total(h - {k})
    decreases |h|
  {
    var k' := Pick(h.Keys);
    assert Total(h) == h[k'] + Total(h - {k'});
    if k' != k {
      var rest := h - {k} - {k'};
      assert h - {k'} - {k} == rest;
      TotalRemove(h - {k'}, k);
      TotalRemove(h - {k}, k');
    }
  }

  /** Adding one to a bucket adds one to the sum. */
  lemma TotalBump(h: map<int, nat>, k: int)
    ensures Total(Bump(h, k)) == Total(h) + 1
  {
    var h' := Bump(h, k);
    var rest := h - {k};
    assert h' - {k} == rest;
    TotalRemove(h', k);
    if k in h {
      TotalRemove(h, k);
    } else {
      assert rest == h;
    }
  }

  /** The dept_wise values, and likewise the class_wise values, add up to
      the number of rows. */
  lemma {:induction false} HistogramsSumToRows(total: nat, rows: seq<PresentRow>, a: Axis)
    ensures Total(Histogram(Tally(total, rows), a)) == |rows|
  {
    if |rows| == 0 {
      assert Histogram(Tally(total, rows), a) == map[];
    } else {
      var front := rows[..|rows| - 1];
      var last := rows[|rows| - 1];
      HistogramsSumToRows(total, front, a);
      assert Histogram(Tally(total, rows), a) == Bump(Histogram(Tally(total, front), a), Bucket(last, a));
      TotalBump(Histogram(Tally(total, front), a), Bucket(last, a));
    }
  }

  /** For the handler's answer: both histograms sum to `total_present`. */
  lemma OverallHistogramsSum(rows: seq<PresentRow>)
    requires |rows| > 0
    ensures Total(Overall(rows).stats.deptWise) == Overall(rows).stats.totalPresent
    ensures Total(Overall(rows).stats.classWise) == Overall(rows).stats.totalPresent
  {
    HistogramsSumToRows(|rows|, rows, Dept);
    HistogramsSumToRows(|rows|, rows, Class);
  }
}

=== FILE: student_update.dfy ===
/** The partial student update (PUT /api/student/:studentId): up to three
    optional flags become an ordered `SET` list of `column = ?` items with
    1/0 values, the student id is bound last for the `WHERE` clause. */
module StudentUpdate {
  import opened Js

  /** The three columns the handler may set, in the order it tests them. */
  datatype Column = Jain | Hostel | Bus

  /** A value bound to a `?` placeholder. */
  datatype Param = Flag(bit: int) | Id(id: string)

  /** The request body's three properties; `Undefined` when absent. */
  datatype Patch = Patch(jain: JsValue, hostel: JsValue, bus: JsValue)

  /** 400 "No valid fields provided", or the statement that is run. */
  datatype UpdateResponse = NoValidFields | Update(columns: seq<Column>, params: seq<Param>)

  /** The flag columns of one `students` row. */
  datatype Flags = Flags(jain: int, hostel: int, bus: int)

  function ColumnName(c: Column): string
  {
    match c
    case Jain => "jain"
    case Hostel => "hostel"
    case Bus => "bus"
  }

  function Field(p: Patch, c: Column): JsValue
  {
    match c
    case Jain => p.jain
    case Hostel => p.hostel
    case Bus => p.bus
  }

  predicate Given(p: Patch, c: Column)
  {
    Field(p, c) != Undefined
  }

  /** The truthiness of a value as the bit the column stores. */
  function Bit(v: JsValue): (b: int)
    ensures b == 1 <==> Truthy(v)
    ensures b == 0 <==> !Truthy(v)
  {
    if Truthy(v) then 1 else 0
  }

  /** One column test of the handler: a given flag adds its column and bit. */
  function Push(acc: (seq<Column>, seq<Param>), p: Patch, c: Column): (seq<Column>, seq<Param>)
  {
    if Given(p, c) then (acc.0 + [c], acc.1 + [Flag(Bit(Field(p, c)))]) else acc
  }

  /** The handler's decision and the statement it builds. */
  function BuildUpdate(p: Patch, studentId: string): (r: UpdateResponse)
    ensures r.NoValidFields? <==> !Given(p, Jain) && !Given(p, Hostel) && !Given(p, Bus)
    ensures r.Update? ==>
      && |r.params| == |r.columns| + 1
      && r.params[|r.columns|] == Id(studentId)
      && (forall c :: c in r.columns <==> Given(p, c))
      && (forall i :: 0 <= i < |r.columns| ==> r.params[i] == Flag(Bit(Field(p, r.columns[i]))))
      && (forall i, j :: 0 <= i < j < |r.columns| ==> ColumnIndex(r.columns[i]) < ColumnIndex(r.columns[j]))
  {
    if !Given(p, Jain) && !Given(p, Hostel) && !Given(p, Bus) then NoValidFields
    else
      var a := Push(Push(Push(([], []), p, Jain), p, Hostel), p, Bus);
      Update(a.0, a.1 + [Id(studentId)])
  }

  /** Position of a column in the order the handler tests them. */
  function ColumnIndex(c: Column): nat
  {
    match c
    case Jain => 0
    case Hostel => 1
    case Bus => 2
  }

  /** The parts with `sep` between neighbours. */
  function Join(parts: seq<string>, sep: string): string
  {
    if |parts| == 0 then ""
    else if |parts| == 1 then parts[0]
    else parts[0] + sep + Join(parts[1..], sep)
  }

  /** The `SET` items, `column = ?` each. */
  function SetItems(cs: seq<Column>): (r: seq<string>)
    ensures |r| == |cs|
    ensures forall i :: 0 <= i < |cs| ==> r[i] == ColumnName(cs[i]) + " = ?"
  {
    seq(|cs|, i requires 0 <= i < |cs| => ColumnName(cs[i]) + " = ?")
  }

  /** The statement text: the comma-separated SET items between the fixed
      UPDATE frame and a WHERE clause on the student id. It carries one
      placeholder per column plus one for the id. */
  function Sql(cs: seq<Column>): (r: string)
    ensures Placeholders(r) == |cs| + 1
  {
    var body := Join(SetItems(cs), ", ");
    JoinPlaceholders(cs);
    StatementFrameHasNoPlaceholder();
    WhereClauseHasOnePlaceholder();
    PlaceholdersConcat("UPDATE students SET ", body);
    PlaceholdersConcat("UPDATE students SET " + body, " WHERE student_id = ?");
    "UPDATE students SET " + body + " WHERE student_id = ?"
  }

  /** Number of `?` placeholders in a text. */
  function Placeholders(s: string): nat
  {
    if |s| == 0 then 0
    else Placeholders(s[..|s| - 1]) + if s[|s| - 1] == '?' then 1 else 0
  }

  lemma {:induction false} PlaceholdersConcat(a: string, b: string)
    ensures Placeholders(a + b) == Placeholders(a) + Placeholders(b)
    decreases |b|
  {
    if |b| > 0 {
      assert (a + b)[..|a + b| - 1] == a + b[..|b| - 1];
      PlaceholdersConcat(a, b[..|b| - 1]);
    } else {
      assert a + b == a;
    }
  }

  /** A text free of `?` followed by one `?` has one placeholder. */
  lemma OnePlaceholderAtEnd(s: string)
    requires forall i :: 0 <= i < |s| ==> s[i] != '?'
    ensures Placeholders(s + "?") == 1
  {
    PlaceholdersNone(s);
    assert (s + "?")[..|s|] == s;
  }

  lemma ColumnItemPlaceholders(c: Column)
    ensures Placeholders(ColumnName(c) + " = ?") == 1
  {
    assert ColumnName(c) + " = ?" == (ColumnName(c) + " = ") + "?";
    OnePlaceholderAtEnd(ColumnName(c) + " = ");
  }

  lemma {:induction false} JoinPlaceholders(cs: seq<Column>)
    ensures Placeholders(Join(SetItems(cs), ", ")) == |cs|
  {
    var items := SetItems(cs);
    if |cs| == 1 {
      ColumnItemPlaceholders(cs[0]);
    } else if |cs| > 1 {
      assert items[1..] == SetItems(cs[1..]);
      JoinPlaceholders(cs[1..]);
      ColumnItemPlaceholders(cs[0]);
      PlaceholdersConcat(items[0], ", ");
      PlaceholdersConcat(items[0] + ", ", Join(items[1..], ", "));
      PlaceholdersNone(", ");
    }
  }

  lemma StatementFrameHasNoPlaceholder()
    ensures Placeholders("UPDATE students SET ") == 0
  {
    PlaceholdersNone("UPDATE students SET ");
  }

  lemma WhereClauseHasOnePlaceholder()
    ensures Placeholders(" WHERE student_id = ?") == 1
  {
    assert " WHERE student_id = ?" == " WHERE student_id = " + "?";
    OnePlaceholderAtEnd(" WHERE student_id = ");
  }

  /** The statement carries exactly one placeholder per bound value, so the
      driver binds the flags to their columns and the id to the `WHERE`. */
  lemma PlaceholdersMatchParams(p: Patch, studentId: string)
    requires BuildUpdate(p, studentId).Update?
    ensures Placeholders(Sql(BuildUpdate(p, studentId).columns)) == |BuildUpdate(p, studentId).params|
  {
  }

  lemma {:induction false} PlaceholdersNone(s: string)
    requires forall i :: 0 <= i < |s| ==> s[i] != '?'
    ensures Placeholders(s) == 0
  {
    if |s| > 0 {
      PlaceholdersNone(s[..|s| - 1]);
    }
  }

  function SetColumn(f: Flags, c: Column, bit: int): Flags
  {
    match c
    case Jain => f.(jain := bit)
    case Hostel => f.(hostel := bit)
    case Bus => f.(bus := bit)
  }

  /** Apply `column = value` items in order to a row. */
  function ApplySet(f: Flags, cs: seq<Column>, params: seq<Param>): Flags
    requires |params| >= |cs|
    requires forall i :: 0 <= i < |cs| ==> params[i].Flag?
    decreases |cs|
  {
    if |cs| == 0 then f
    else ApplySet(SetColumn(f, cs[0], params[0].bit), cs[1..], params[1..])
  }

  /** Running the statement against the `students` table, keyed by the id
      as the URL carries it; the driver binds parameters by position. An id
      that matches no row leaves the table as it was. */
  function Execute(table: map<string, Flags>, r: UpdateResponse): (t: map<string, Flags>)
    requires r.Update? ==> |r.params| == |r.columns| + 1 && r.params[|r.columns|].Id?
    requires r.Update? ==> forall i :: 0 <= i < |r.columns| ==> r.params[i].Flag?
    ensures t.Keys == table.Keys
    ensures r.NoValidFields? ==> t == table
    ensures r.Update? ==> forall id :: id in table && id != r.params[|r.columns|].id ==> t[id] == table[id]
  {
    if r.NoValidFields? then table
    else
      var id := r.params[|r.columns|].id;
      if id in table then table[id := ApplySet(table[id], r.columns, r.params)] else table
  }

  /** A column keeps its bit from the last item naming it, or its old value. */
  lemma {:induction false} ApplySetDistinct(f: Flags, cs: seq<Column>, params: seq<Param>, c: Column)
    requires |params| >= |cs|
    requires forall i, j :: 0 <= i < j < |cs| ==> cs[i] != cs[j]
    requires forall i :: 0 <= i < |cs| ==> params[i].Flag?
    ensures c !in cs ==> Get(ApplySet(f, cs, params), c) == Get(f, c)
    ensures forall i :: 0 <= i < |cs| && cs[i] == c ==> Get(ApplySet(f, cs, params), c) == params[i].bit
    decreases |cs|
  {
    if |cs| > 0 {
      assert forall i :: 0 <= i < |cs| - 1 ==> cs[1..][i] == cs[i + 1] && params[1..][i] == params[i + 1];
      ApplySetDistinct(SetColumn(f, cs[0], params[0].bit), cs[1..], params[1..], c);
    }
  }

  function Get(f: Flags, c: Column): int
  {
    match c
    case Jain => f.jain
    case Hostel => f.hostel
    case Bus => f.bus
  }

  /** End to end: after the update the student's given flags hold the
      truthiness of the request values and the others are unchanged;
      every other student is untouched. */
  lemma UpdateSetsGivenFlags(table: map<string, Flags>, p: Patch, studentId: string)
    requires BuildUpdate(p, studentId).Update?
    ensures var t := Execute(table, BuildUpdate(p, studentId));
      && t.Keys == table.Keys
      && (forall id :: id in table && id != studentId ==> t[id] == table[id])
      && (studentId in table ==> forall c :: Get(t[studentId], c) == if Given(p, c) then Bit(Field(p, c)) else Get(table[studentId], c))
  {
    var r := BuildUpdate(p, studentId);
    if studentId in table {
      forall c
        ensures Get(Execute(table, r)[studentId], c) == if Given(p, c) then Bit(Field(p, c)) else Get(table[studentId], c)
      {
        assert forall i, j :: 0 <= i < j < |r.columns| ==> r.columns[i] != r.columns[j];
        ApplySetDistinct(table[studentId], r.columns, r.params, c);
        if Given(p, c) {
          var i :| 0 <= i < |r.columns| && r.columns[i] == c;
        }
      }
    }
  }
}

=== FILE: subject_merge.dfy ===
/** The subject list of a staff member (GET /api/subjects/staff): the
    subjects the staff member handles, followed by the subjects of the
    classes they are class advisor of, de-duplicated by subject id through
    a JavaScript `Map`. */
module SubjectMerge {
  import opened Js

  /** One row of the `subjects` table. */
  datatype SubjectRow = SubjectRow(subjectId: int, name: string, classId: int, staffId: Option<int>)

  /** A subject row spread into a new object with a `from_ca` flag. */
  datatype Subject = Subject(row: SubjectRow, fromCa: bool)

  /** One row of the `classes` table (only the columns the query reads). */
  datatype ClassRow = ClassRow(classId: int, caId: Option<int>, assignedCaId: Option<int>)

  /** The three lists of the JSON answer. */
  datatype SubjectsResponse = SubjectsResponse(handled: seq<SubjectRow>, ca: seq<Subject>, subjects: seq<Subject>)

  function Key(s: Subject): int { s.row.subjectId }

  function KeySet(xs: seq<Subject>): set<int>
  {
    set x | x in xs :: Key(x)
  }

  /** Keys of a sequence are pairwise different. */
  predicate DistinctKeys(xs: seq<Subject>)
  {
    forall i, j :: 0 <= i < j < |xs| ==> Key(xs[i]) != Key(xs[j])
  }

  /** Position of the first entry of `xs` with key `k`. */
  function FirstIndex(xs: seq<Subject>, k: int): (r: Option<nat>)
    ensures r.Some? ==> r.value < |xs| && Key(xs[r.value]) == k
    ensures r.Some? ==> forall j :: 0 <= j < r.value ==> Key(xs[j]) != k
    ensures r.None? ==> forall j :: 0 <= j < |xs| ==> Key(xs[j]) != k
  {
    if |xs| == 0 then None
    else if Key(xs[0]) == k then Some(0)
    else
      match FirstIndex(xs[1..], k)
      case None => None
      case Some(i) => Some(i + 1)
  }

  /** The last entry of `xs` with key `k`. */
  function LastWith(xs: seq<Subject>, k: int): (r: Option<Subject>)
    ensures r.Some? ==> Key(r.value) == k && r.value in xs
    ensures r.None? ==> k !in KeySet(xs)
  {
    if |xs| == 0 then None
    else if Key(xs[|xs| - 1]) == k then Some(xs[|xs| - 1])
    else
      var r := LastWith(xs[..|xs| - 1], k);
      assert xs == xs[..|xs| - 1] + [xs[|xs| - 1]];
      r
  }

  /** JavaScript `Map.prototype.set` on an insertion-ordered map held as a
      sequence of its values: an existing key keeps its position and takes
      the new value, a new key goes to the end. */
  function MapSet(m: seq<Subject>, s: Subject): (r: seq<Subject>)
    ensures Key(s) in KeySet(m) ==> |r| == |m|
    ensures Key(s) !in KeySet(m) ==> r == m + [s]
    ensures forall i :: 0 <= i < |m| ==> Key(r[i]) == Key(m[i])
    ensures forall i :: 0 <= i < |m| && Key(m[i]) != Key(s) ==> r[i] == m[i]
    ensures KeySet(r) == KeySet(m) + {Key(s)}
    ensures DistinctKeys(m) ==> DistinctKeys(r)
    ensures DistinctKeys(m) ==> forall i :: 0 <= i < |r| && Key(r[i]) == Key(s) ==> r[i] == s
  {
    match FirstIndex(m, Key(s))
    case None =>
      var r := m + [s];
      assert KeySet(r) == KeySet(m) + {Key(s)};
      r
    case Some(p) =>
      var r := m[p := s];
      assert KeySet(r) == KeySet(m) + {Key(s)} by {
        forall k | k in KeySet(m)
          ensures k in KeySet(r)
        {
          var x :| x in m && Key(x) == k;
          var i :| 0 <= i < |m| && m[i] == x;
          assert Key(r[i]) == k && r[i] in r;
        }
        forall k | k in KeySet(r)
          ensures k in KeySet(m) + {Key(s)}
        {
          var x :| x in r && Key(x) == k;
          var i :| 0 <= i < |r| && r[i] == x;
          if i != p {
            assert m[i] in m;
          }
        }
      }
      r
  }

  /** Insert every entry, in order, into an empty map keyed by subject id
      and list the map's values in insertion order. */
  function Dedup(xs: seq<Subject>): (r: seq<Subject>)
    ensures |r| <= |xs|
  {
    if |xs| == 0 then []
    else MapSet(Dedup(xs[..|xs| - 1]), xs[|xs| - 1])
  }

  /** `a` first occurs in `xs` strictly before `b` does. */
  predicate FirstBefore(xs: seq<Subject>, a: int, b: int)
  {
    FirstIndex(xs, a).Some? && FirstIndex(xs, b).Some? && FirstIndex(xs, a).value < FirstIndex(xs, b).value
  }

  /** Appending an entry does not move the first occurrence of a key already
      present, and a new key first occurs at the end. */
  lemma FirstIndexSnoc(xs: seq<Subject>, s: Subject, k: int)
    ensures k in KeySet(xs) ==> FirstIndex(xs + [s], k) == FirstIndex(xs, k)
    ensures k !in KeySet(xs) && k == Key(s) ==> FirstIndex(xs + [s], k) == Some(|xs|)
  {
    var ys := xs + [s];
    if k in KeySet(xs) {
      var x :| x in xs && Key(x) == k;
      var i :| 0 <= i < |xs| && xs[i] == x;
      var p := FirstIndex(xs, k).value;
      assert ys[p] == xs[p];
    } else if k == Key(s) {
      assert ys[|xs|] == s;
    }
  }

  /** The de-duplicated list holds one entry per subject id, and exactly
      the subject ids of the input. */
  lemma {:induction false} DedupKeys(xs: seq<Subject>)
    ensures DistinctKeys(Dedup(xs))
    ensures KeySet(Dedup(xs)) == KeySet(xs)
  {
    if |xs| > 0 {
      var front := xs[..|xs| - 1];
      var last := xs[|xs| - 1];
      assert xs == front + [last];
      DedupKeys(front);
      assert KeySet(xs) == KeySet(front) + {Key(last)};
    }
  }

  /** The entry kept for a subject id is the LAST input entry with that id. */
  lemma {:induction false} DedupLastValue(xs: seq<Subject>)
    ensures forall i :: 0 <= i < |Dedup(xs)| ==> LastWith(xs, Key(Dedup(xs)[i])) == Some(Dedup(xs)[i])
  {
    if |xs| > 0 {
      var front := xs[..|xs| - 1];
      var last := xs[|xs| - 1];
      DedupLastValue(front);
      DedupKeys(front);
      var m := Dedup(front);
      var r := Dedup(xs);
      forall i | 0 <= i < |r|
        ensures LastWith(xs, Key(r[i])) == Some(r[i])
      {
        if Key(r[i]) != Key(last) {
          assert r[i] == m[i];
        }
      }
    }
  }

  /** Entries are ordered by the FIRST occurrence of their subject id. */
  lemma {:induction false} DedupFirstOrder(xs: seq<Subject>)
    ensures forall i, j :: 0 <= i < j < |Dedup(xs)| ==> FirstBefore(xs, Key(Dedup(xs)[i]), Key(Dedup(xs)[j]))
  {
    if |xs| > 0 {
      var front := xs[..|xs| - 1];
      var last := xs[|xs| - 1];
      assert xs == front + [last];
      DedupFirstOrder(front);
      DedupKeys(front);
      var m := Dedup(front);
      var r := Dedup(xs);
      forall i, j | 0 <= i < j < |r|
        ensures FirstBefore(xs, Key(r[i]), Key(r[j]))
      {
        assert Key(r[i]) == Key(m[i]) && m[i] in m;
        FirstIndexSnoc(front, last, Key(r[i]));
        if j < |m| {
          assert Key(r[j]) == Key(m[j]) && m[j] in m;
          FirstIndexSnoc(front, last, Key(r[j]));
          assert FirstBefore(front, Key(m[i]), Key(m[j]));
        } else {
          assert r[j] == last;
          FirstIndexSnoc(front, last, Key(last));
        }
      }
    }
  }

  /** Each row wrapped with the given `from_ca` flag, order kept. */
  function Tag(rows: seq<SubjectRow>, fromCa: bool): (r: seq<Subject>)
    ensures |r| == |rows|
    ensures forall i :: 0 <= i < |rows| ==> r[i] == Subject(rows[i], fromCa)
  {
    seq(|rows|, i requires 0 <= i < |rows| => Subject(rows[i], fromCa))
  }

  /** The subject rows whose staff id is the caller, in table order. */
  function HandledBy(xs: seq<SubjectRow>, staffId: int): (r: seq<SubjectRow>)
    ensures forall x :: x in r <==> x in xs && x.staffId == Some(staffId)
  {
    if |xs| == 0 then []
    else
      var rest := HandledBy(xs[1..], staffId);
      assert forall x :: x in xs <==> x == xs[0] || x in xs[1..];
      if xs[0].staffId == Some(staffId) then [xs[0]] + rest else rest
  }

  /** The subject rows whose class is one of `classIds`, in table order. */
  function InClasses(xs: seq<SubjectRow>, classIds: seq<int>): (r: seq<SubjectRow>)
    ensures forall x :: x in r <==> x in xs && x.classId in classIds
  {
    if |xs| == 0 then []
    else
      var rest := InClasses(xs[1..], classIds);
      assert forall x :: x in xs <==> x == xs[0] || x in xs[1..];
      if xs[0].classId in classIds then [xs[0]] + rest else rest
  }

  /** The staff member is the class advisor, or the assigned class advisor. */
  predicate Advises(c: ClassRow, staffId: int)
  {
    c.caId == Some(staffId) || c.assignedCaId == Some(staffId)
  }

  /** Ids of the classes the staff member advises, in table order. */
  function AdvisedClasses(classes: seq<ClassRow>, staffId: int): (r: seq<int>)
    ensures forall c :: c in r <==> exists row :: row in classes && Advises(row, staffId) && row.classId == c
  {
    if |classes| == 0 then []
    else
      var rest := AdvisedClasses(classes[1..], staffId);
      assert forall row :: row in classes <==> row == classes[0] || row in classes[1..];
      if Advises(classes[0], staffId) then [classes[0].classId] + rest else rest
  }

  /** The handler: handled subjects, the subjects of advised classes (only
      for the roles "CA" and "Staff"), and the merged, de-duplicated list. */
  function StaffSubjects(role: string, staffId: int, subjects: seq<SubjectRow>, classes: seq<ClassRow>): (r: SubjectsResponse)
    ensures forall x :: x in r.handled <==> x in subjects && x.staffId == Some(staffId)
    ensures role != "CA" && role != "Staff" ==> r.ca == []
    ensures forall i :: 0 <= i < |r.ca| ==> r.ca[i].fromCa && r.ca[i].row in subjects
    ensures forall i :: 0 <= i < |r.ca| ==> r.ca[i].row.classId in AdvisedClasses(classes, staffId)
    ensures (role == "CA" || role == "Staff") ==>
      forall x :: x in subjects && x.classId in AdvisedClasses(classes, staffId) ==> Subject(x, true) in r.ca
  {
    var handled := HandledBy(subjects, staffId);
    var advised := AdvisedClasses(classes, staffId);
    var ca :=
      if (role == "CA" || role == "Staff") && |advised| > 0
      then Tag(InClasses(subjects, advised), true)
      else [];
    SubjectsResponse(handled, ca, Dedup(Tag(handled, false) + ca))
  }

  /** Merging more entries keeps the keys already placed where they are. */
  lemma {:induction false} DedupKeepsPrefix(h: seq<Subject>, c: seq<Subject>)
    ensures |Dedup(h)| <= |Dedup(h + c)|
    ensures forall i :: 0 <= i < |Dedup(h)| ==> Key(Dedup(h + c)[i]) == Key(Dedup(h)[i])
  {
    if |c| == 0 {
      assert h + c == h;
    } else {
      var c' := c[..|c| - 1];
      assert (h + c)[..|h + c| - 1] == h + c';
      assert (h + c)[|h + c| - 1] == c[|c| - 1];
      DedupKeepsPrefix(h, c');
      DedupKeys(h + c');
    }
  }

  /** The last entry for a key of a concatenation comes from the second
      part when the key occurs there, and from the first part otherwise. */
  lemma {:induction false} LastWithAppend(h: seq<Subject>, c: seq<Subject>, k: int)
    ensures k in KeySet(c) ==> LastWith(h + c, k) == LastWith(c, k)
    ensures k !in KeySet(c) ==> LastWith(h + c, k) == LastWith(h, k)
  {
    if |c| == 0 {
      assert h + c == h;
    } else {
      var c' := c[..|c| - 1];
      assert c == c' + [c[|c| - 1]];
      assert (h + c)[..|h + c| - 1] == h + c';
      assert KeySet(c) == KeySet(c') + {Key(c[|c| - 1])};
      LastWithAppend(h, c', k);
    }
  }

  /** Merging unflagged entries `h` with flagged entries `c`: one entry per
      subject id of either list; the ids of `h` keep their order at the
      front; an entry is flagged exactly when its id occurs in `c`, and then
      it is the last copy from `c`. */
  lemma MergeShape(h: seq<Subject>, c: seq<Subject>)
    requires forall i :: 0 <= i < |h| ==> !h[i].fromCa
    requires forall i :: 0 <= i < |c| ==> c[i].fromCa
    ensures var m := Dedup(h + c);
      && DistinctKeys(m)
      && KeySet(m) == KeySet(h) + KeySet(c)
      && |Dedup(h)| <= |m|
      && (forall i :: 0 <= i < |Dedup(h)| ==> Key(m[i]) == Key(Dedup(h)[i]))
      && (forall i :: 0 <= i < |m| ==> (m[i].fromCa <==> Key(m[i]) in KeySet(c)))
      && (forall i :: 0 <= i < |m| && Key(m[i]) in KeySet(c) ==> m[i] == LastWith(c, Key(m[i])).value)
  {
    var xs := h + c;
    var m := Dedup(xs);
    DedupKeys(xs);
    DedupLastValue(xs);
    DedupKeepsPrefix(h, c);
    assert KeySet(xs) == KeySet(h) + KeySet(c) by {
      assert forall x :: x in xs <==> x in h || x in c;
    }
    forall i | 0 <= i < |m|
      ensures m[i].fromCa <==> Key(m[i]) in KeySet(c)
      ensures Key(m[i]) in KeySet(c) ==> m[i] == LastWith(c, Key(m[i])).value
    {
      var k := Key(m[i]);
      LastWithAppend(h, c, k);
      if k in KeySet(c) {
        var e := LastWith(c, k).value;
        assert e in c;
      } else {
        var e := LastWith(h, k).value;
        assert e in h;
      }
    }
  }

  /** The merged list of the handler: one entry per subject id of either
      list; the handled subjects keep their order at the front; an entry is
      flagged `from_ca` exactly when its subject is among the class-advisor
      subjects, so a subject that is both keeps its handled position but
      carries the class-advisor copy. */
  lemma StaffSubjectsMerge(role: string, staffId: int, subjects: seq<SubjectRow>, classes: seq<ClassRow>)
    ensures var r := StaffSubjects(role, staffId, subjects, classes);
      var h := Tag(r.handled, false);
      && DistinctKeys(r.subjects)
      && KeySet(r.subjects) == KeySet(h) + KeySet(r.ca)
      && |Dedup(h)| <= |r.subjects|
      && (forall i :: 0 <= i < |Dedup(h)| ==> Key(r.subjects[i]) == Key(Dedup(h)[i]))
      && (forall i :: 0 <= i < |r.subjects| ==>
            (r.subjects[i].fromCa <==> Key(r.subjects[i]) in KeySet(r.ca)))
      && (forall i :: 0 <= i < |r.subjects| && Key(r.subjects[i]) in KeySet(r.ca) ==>
            r.subjects[i] == LastWith(r.ca, Key(r.subjects[i])).value)
  {
    var r := StaffSubjects(role, staffId, subjects, classes);
    var h := Tag(r.handled, false);
    MergeShape(h, r.ca);
    assert r.subjects == Dedup(h + r.ca);
  }

  /** A subject the staff member both handles and sees as class advisor
      stays in its handled position but is flagged `from_ca`. */
  lemma HandledAndAdvisedExample()
    ensures var maths := SubjectRow(1, "Maths", 3, Some(10));
      var physics := SubjectRow(2, "Physics", 4, Some(10));
      var chemistry := SubjectRow(3, "Chemistry", 3, Some(11));
      StaffSubjects("CA", 10, [maths, physics, chemistry], [ClassRow(3, Some(10), None)]).subjects
        == [Subject(maths, true), Subject(physics, false), Subject(chemistry, true)]
  {
    var maths := SubjectRow(1, "Maths", 3, Some(10));
    var physics := SubjectRow(2, "Physics", 4, Some(10));
    var chemistry := SubjectRow(3, "Chemistry", 3, Some(11));
    ExampleQueries(maths, physics, chemistry);
    ExampleDedup(maths, physics, chemistry);
  }

  lemma ExampleQueries(maths: SubjectRow, physics: SubjectRow, chemistry: SubjectRow)
    requires maths == SubjectRow(1, "Maths", 3, Some(10))
    requires physics == SubjectRow(2, "Physics", 4, Some(10))
    requires chemistry == SubjectRow(3, "Chemistry", 3, Some(11))
    ensures HandledBy([maths, physics, chemistry], 10) == [maths, physics]
    ensures AdvisedClasses([ClassRow(3, Some(10), None)], 10) == [3]
    ensures InClasses([maths, physics, chemistry], [3]) == [maths, chemistry]
  {
    var subjects := [maths, physics, chemistry];
    assert subjects[1..] == [physics, chemistry] && subjects[1..][1..] == [chemistry];
    assert subjects[1..][1..][1..] == [];
    assert HandledBy(subjects[1..][1..], 10) == [];
    assert HandledBy(subjects[1..], 10) == [physics];
    assert InClasses(subjects[1..][1..], [3]) == [chemistry];
    assert InClasses(subjects[1..], [3]) == [chemistry];
  }

  lemma ExampleDedup(maths: SubjectRow, physics: SubjectRow, chemistry: SubjectRow)
    requires maths.subjectId == 1 && physics.subjectId == 2 && chemistry.subjectId == 3
    ensures Dedup(Tag([maths, physics], false) + Tag([maths, chemistry], true))
      == [Subject(maths, true), Subject(physics, false), Subject(chemistry, true)]
  {
    var xs := [Subject(maths, false), Subject(physics, false), Subject(maths, true), Subject(chemistry, true)];
    assert Tag([maths, physics], false) + Tag([maths, chemistry], true) == xs;
    assert xs[..3][..2][..1] == [Subject(maths, false)];
    assert Dedup(xs[..3][..2][..1]) == [Subject(maths, false)];
    assert Dedup(xs[..3][..2]) == [Subject(maths, false), Subject(physics, false)];
    assert Dedup(xs[..3]) == [Subject(maths, true), Subject(physics, false)];
  }

  /** A key present in both parts of a merge sits where the first part
      put it, and carries the second part's copy. */
  lemma MergeKeepsPositionTakesLater(t: seq<Subject>, c: seq<Subject>, k: int)
    requires k in KeySet(t) && k in KeySet(c)
    ensures exists i :: 0 <= i < |Dedup(t)| && i < |Dedup(t + c)| && Key(Dedup(t)[i]) == k && Dedup(t + c)[i] == LastWith(c, k).value
  {
    DedupKeys(t);
    DedupKeepsPrefix(t, c);
    DedupLastValue(t + c);
    LastWithAppend(t, c, k);
    var e :| e in Dedup(t) && Key(e) == k;
    var i :| 0 <= i < |Dedup(t)| && Dedup(t)[i] == e;
    assert Key(Dedup(t + c)[i]) == k;
  }

  /** For the roles "CA" and "Staff", a subject the staff member handles
      whose class they also advise keeps its handled position in the merged
      list, and the entry there is flagged `from_ca`. */
  lemma HandledAndAdvisedFlagged(role: string, staffId: int, subjects: seq<SubjectRow>, classes: seq<ClassRow>, x: SubjectRow)
    requires role == "CA" || role == "Staff"
    requires x in subjects && x.staffId == Some(staffId)
    requires x.classId in AdvisedClasses(classes, staffId)
    ensures var r := StaffSubjects(role, staffId, subjects, classes);
      var h := Dedup(Tag(r.handled, false));
      exists i :: 0 <= i < |h| && i < |r.subjects| && Key(h[i]) == x.subjectId && Key(r.subjects[i]) == x.subjectId && r.subjects[i].fromCa
  {
    var r := StaffSubjects(role, staffId, subjects, classes);
    var t := Tag(r.handled, false);
    assert r.subjects == Dedup(t + r.ca);
    assert x in r.handled;
    var j :| 0 <= j < |r.handled| && r.handled[j] == x;
    assert t[j] in t && Key(t[j]) == x.subjectId;
    assert Subject(x, true) in r.ca;
    assert x.subjectId in KeySet(r.ca);
    MergeKeepsPositionTakesLater(t, r.ca, x.subjectId);
    var e := LastWith(r.ca, x.subjectId).value;
    var k :| 0 <= k < |r.ca| && r.ca[k] == e;
    assert e.fromCa;
  }
}
